=== FILE: README.md ===
# GradeSense core in Dafny

GradeSense (`capp.py`) is a four-step Streamlit wizard for planning a CGPA:

1. OCR text of a course almanac is turned into a table of subjects.
2. The user edits and confirms the table, and sees a summary of it.
3. The user enters internals, expected grades and a target CGPA.
4. The wizard shows a verdict on the target and a subject-wise grade plan.

This project models the logic under the UI as pure functions on immutable
values and proves what they promise:

- `Text` holds the Python string primitives the parser uses: `str.isspace`, `strip()`, `split("\n")`,
  and the `\s+` → `" "` rewrite. `" ".join(s.split())` serves as an independent reference for the rewrite.
- `Ocr` is the line parser of step 1. It writes out `\b[1-4]\b`, `\bU\d+\w+\b` and `[0-9|_–\-]` by hand.
- `Table` holds the subject rows, the step-2 clean-up (`dropna` on "Subject" and the renumbering of
  "S.No") and the step-2 summary.
- `Advice` holds the grade tables, `verdict_text` and the step-4 plan.
- `Wizard` holds the session state, the transition function for one rerun, and the invariant every
  reachable session keeps.
- `Seqs` holds the order-preserving filter shared by the parser and the clean-up, with the positions
  each kept element came from. `Wrappers` holds `Option`.

A row's subject is `Option<string>`, because the editing grid can leave the cell empty. Its type is
`Option<Kind>` for the same reason. Credits are `int`. The target CGPA is a `real`.

The line `"  12  "` yields no row. Line 57 finds no standalone digit 1 to 4 in it, because `12` is one
two-digit number, so the line is skipped at line 58 and the length check is never reached.

## Model

| member | source | states |
|---|---|---|
| `Text.Strip` | capp.py:53 | `str.strip()` leaves no whitespace at either end and keeps every non-whitespace character, in order. It is empty exactly when the line is blank, and it leaves a trimmed string alone. |
| `Text.StripIsSlice` | capp.py:53 | `str.strip()` gives a contiguous slice of the line, with only whitespace before and after it. |
| `Text.SplitLines` | capp.py:52 | `split("\n")` gives at least one piece, and no piece holds a newline. With `Text.JoinSplitLines` and `Text.SplitJoinLines`, it is the only such split of the text. |
| `Text.JoinSplitLines` | capp.py:52 | The pieces of `split("\n")`, joined back with newlines, give the text again. There is one more piece than there are newlines. |
| `Text.SplitJoinLines` | capp.py:52 | Splitting newline-free pieces joined by newlines gives the pieces back. |
| `Text.Collapse` | capp.py:64 | `re.sub(r"\s+", " ")` leaves no whitespace but single spaces, never two side by side. It starts and ends like its input and keeps every non-whitespace character in order. That each whitespace run becomes exactly one space is stated by `Text.SplitWhitespaceCollapse`. |
| `Text.SplitWhitespaceCollapse` | capp.py:64 | Collapsing whitespace runs keeps the words of `s.split()` exactly. Together with single spacing, each run between two words becomes one space. |
| `Text.Normalize` | capp.py:64 | The rewrite followed by `.strip()` gives a single-spaced, trimmed string with the same non-whitespace characters. |
| `Text.NormalizeIsJoinSplit` | capp.py:64 | The rewrite plus strip equals the reference `" ".join(s.split())`. |
| `Text.SplitWhitespaceTokens` | capp.py:64 | Every piece of the reference `s.split()` is a non-empty word without whitespace. |
| `Text.SplitJoinSpaced` | capp.py:64 | Joining such words with single spaces and splitting again gives the words back, so the reference `" ".join(s.split())` loses no word. |
| `Text.NormalizeIdempotent` | capp.py:64 | Cleaning a cleaned subject again changes nothing. |
| `Ocr.MatchesFrom` | capp.py:57 | `re.findall(r"\b[1-4]\b")` as positions: every position is a match, none is missed, and they increase. |
| `Ocr.LastCredit` | capp.py:57-61 | There is no credit exactly when the line has no standalone digit 1 to 4. Otherwise the credit is the value of the last such digit, so it lies in 1..4. |
| `Ocr.StripCodes` | capp.py:62 | Removing `\bU\d+\w+\b` leaves no course code and removes only word characters. Every other character stays, in order. |
| `Ocr.StripCodesIdempotent` | capp.py:62 | Removing course codes twice is the same as removing them once. |
| `Ocr.ReplaceSeparators` | capp.py:63 | Every digit, `\|`, `_`, `–` and `-` becomes a space in place. Every other character is unchanged, and no separator is left. |
| `Ocr.CleanSubject` | capp.py:62-64 | The cleaned subject has no separator, no whitespace at the ends and no double whitespace. It is the remaining words joined by single spaces. |
| `Ocr.ParseLine` | capp.py:53-67 | A line gives a row exactly when it has a standalone digit 1 to 4 and its cleaned subject is longer than 5 characters. The row's subject is the line's cleaned subject and its credit is the last such digit. |
| `Ocr.ParseLineNeedsCredit` | capp.py:53-61 | A line that gives a row is not blank after stripping. The row's credit is the digit at the last standalone-digit position. |
| `Ocr.Number` | capp.py:67-70 | Row k has "S.No" k + 1, type "Theory", and the k-th entry's subject and credit. |
| `Ocr.KeptEntriesValid` | capp.py:62-67 | Every entry the parser keeps has clean text, a subject longer than 5 characters, and a credit in 1..4. |
| `Ocr.ParseText` | capp.py:51-70 | The parsed table is numbered 1..n and every row is "Theory" with a valid subject and credit. It has no more rows than the text has lines. |
| `Ocr.ParseTextKeepsLineOrder` | capp.py:52-70 | Row k carries what line ix[k] yields, and the ix increase. Every line without a row is one the parser drops. |
| `Ocr.ParseTextRowsFromLines` | capp.py:51-70 | Row k of the parsed table comes from line ix[k] of the text. Its subject is that line's cleaned subject and its credit is that line's last standalone digit 1 to 4. |
| `Ocr.ParseTextIsClean` | capp.py:69-70 | The parsed table is already what the step-2 clean-up would make of it. |
| `Table.Renumber` | capp.py:96 | "S.No" becomes 1..n and nothing else in a row changes. |
| `Table.Cleanup` | capp.py:95-96 | Rows without a subject are dropped, the rest keep their order, and they are renumbered 1..n. Each result row is an input row at an increasing position, and every named row is kept. |
| `Table.CleanupIdempotent` | capp.py:95-96 | Cleaning twice is the same as cleaning once. |
| `Table.Summarize` | capp.py:98-101 | The subjects are the rows left after clean-up. The credits are the sum over named rows, and the theory count is the named "Theory" rows. Theory plus labs/other equals the subjects. |
| `Table.SummaryCountsNamedRows` | capp.py:95-100 | Dropping unnamed rows and renumbering keep the credits and the theory rows of the named rows. |
| `Table.TheoryPlusOther` | capp.py:100-101 | Every row is counted either as theory or as labs/other. |
| `Advice.GradeTablesAgree` | capp.py:14-15 | `GRADE_POINTS` and `GRADE_TO_MARK` have the same grades, and every grade point lies in 6..10. |
| `Advice.Verdict` | capp.py:31-37 | The "very difficult" text is given exactly when target >= 9.5. The "strong performance" text is given exactly when 9.0 <= target < 9.5, and "comfortably achievable" exactly when target < 9.0. |
| `Advice.VerdictMonotone` | capp.py:31-37 | A higher target never gets a milder verdict. |
| `Advice.Suggest` | capp.py:185-189 | Theory with credit >= 3 gets ("A+", "60+"). Theory with credit < 3 gets ("A", "55+"). Any other type gets ("A", "—"). Subject and credit are copied, and the grade is a key of both grade tables. |
| `Advice.Plan` | capp.py:183-189 | The plan has one entry per row, in row order. |
| `Advice.PlanPointsBounds` | capp.py:183-189 | When no credit is negative, the plan's credit-weighted grade points lie between 9 and 10 times the total credits. |
| `Advice.PlanAppend` | capp.py:183-189 | Planning two tables one after the other equals planning their concatenation. |
| `Wizard.Next` | capp.py:72-205 | "Back", "Proceed" and "Start Over" never change the table. Step 4 is entered only from step 3 by "Analyze", which alone changes the stored inputs. |
| `Wizard.InitInv` | capp.py:18-25 | A fresh session satisfies the invariant. |
| `Wizard.NextInv` | capp.py:72-205 | Every transition keeps the invariant: the step is in 1..4, and from step 2 on the table is clean. Steps 3 and 4 are only reached confirmed, and step 4 has inputs. |
| `Wizard.RunInv` | capp.py:18-25 | Every session reached from a fresh one keeps the invariant, so its step is always 1, 2, 3 or 4. |
| `Wizard.LeaveStepOne` | capp.py:72-75 | Step 1 is left only by "Proceed" with an image uploaded, and it goes to step 2. From a session that keeps the invariant, it arrives unconfirmed, with the table freshly parsed from the OCR text. |
| `Wizard.ProceedFromStepTwo` | capp.py:125-129 | "Proceed" on step 2 goes to step 3 when confirmed. Otherwise the state is unchanged. |
| `Wizard.EnterStepThree` | capp.py:125-129 | Step 3 is entered only from step 2, by "Proceed", when confirmed. |
| `Wizard.EnterStepFour` | capp.py:160-164 | Step 4 is entered only from step 3, by "Analyze", which stores the inputs. |
| `Wizard.ConfirmStoresCleanup` | capp.py:120-122 | "Confirm" stores the cleaned edits and sets `confirmed`. |
| `Wizard.ConfirmedNeedsConfirm` | capp.py:120-129 | A session from a fresh start is confirmed only after a "Confirm" event. |
| `Wizard.Analysis` | capp.py:167-189 | A reachable step-4 session shows the verdict band of its target: very difficult from 9.5, strong performance from 9.0 below 9.5, comfortable below 9.0. The plan has one line per confirmed row, and it is that row's suggestion (A+ for theory with 3 or more credits, A otherwise), with a subject, a grade from the grade table, and the mark `GRADE_TO_MARK` gives for theory rows or "—" for others. |

## Left out

- Streamlit rendering, widgets, forms, messages and the session plumbing are left out, because they are UI. A rerun
  caused by one widget is one `Wizard.Event`. A button the current step does not show cannot be pressed, so its event
  changes nothing.
- Image upload and `pytesseract.image_to_string` are left out, because they are foreign image and OCR I/O. The OCR
  text, as edited in the preview box, is the argument of the `Upload` event.
- The grid edits of `st.data_editor` are not modelled as edits. The edited table is the argument of the `Confirm`
  event and may be any table.
- pandas mechanics are left out: NaN credits, dtype conversion and `int(...)` of the credit sum. Credits are integers
  and an empty subject is `None`.
- Step 3's widgets are left out. The internals, grades and target arrive in the `Analyze` event, and the widget
  ranges (0–30, 0.0–10.0, the grade list) are not enforced on them.
- `internal_gp` (lines 28-29) is left out because nothing calls it.
- The static advice texts of Options A and C (lines 175-180, 196-199) are left out, and so is the "Grade → Marks
  Guide" table (line 202), because they are fixed text.
- The target is a `real`, not a binary float. The thresholds 9.5 and 9.0 compare the same way for every float a
  user can enter.
- Word characters (`\w`) are ASCII letters, digits and `_`, and `\d` is an ASCII digit. Python's `str` patterns
  also accept other Unicode letters and digits. Whitespace (`\s` and `strip()`) is the exact set `str.isspace`
  accepts.
- `Wizard.Next`: in the model the upload is forgotten once step 1 is left. A widget that is not rendered
  loses its value, so after "Back" the table and `confirmed` stay as they were until a new image is uploaded.
- Lone surrogate code points, which a Python `str` can hold, are left out, because a Dafny `char` is a Unicode scalar value.
- `Text.Strip`: its own contract does not say that the result is a slice of the input. `Text.StripIsSlice` states that for every input. It is a separate lemma so that the slice facts are not in scope wherever `Strip` is used.
- `Ocr.StripCodes`: the contract does not say that each word other than a course code survives whole. It states
  that only word characters are removed, that no course code is left, and that removal is idempotent. A complete
  characterization would only repeat the word-by-word recursion of the body.
- No back-solved required-average computation is modelled, because `capp.py` contains none.

=== FILE: advice.dfy ===
/** The grade scale and what step 4 shows (capp.py, lines 14-15, 31-37 and
    183-189): the quick verdict on the target CGPA and the subject-wise
    plan. */
module Advice {
  import opened Wrappers
  import opened Table

  /** `GRADE_POINTS`: grade point of each letter grade. */
  const GradePoints: map<string, int> := map["A+" := 10, "A" := 9, "B" := 8, "C" := 7, "D" := 6]

  /** `GRADE_TO_MARK`: the end-semester mark each letter grade needs. */
  const GradeToMark: map<string, string> :=
    map["A+" := "60+", "A" := "55+", "B" := "50+", "C" := "45+", "D" := "40+"]

  /** The mark shown for a subject that is not a theory subject. */
  const NoMark: string := "\U{2014}"

  /** The two tables describe the same grades. */
  lemma GradeTablesAgree()
    ensures GradePoints.Keys == GradeToMark.Keys
    ensures forall g :: g in GradePoints ==> 6 <= GradePoints[g] <= 10
  {
    assert GradePoints.Keys == {"A+", "A", "B", "C", "D"};
    assert GradeToMark.Keys == {"A+", "A", "B", "C", "D"};
  }

  // ------------------------------------------------------------ the verdict

  const VeryDifficult: string := "\U{26A0}\U{FE0F} Very difficult \U{2014} requires almost all A+"
  const StrongPerformance: string := "\U{2705} Achievable with strong performance in theory subjects"
  const Comfortable: string := "\U{2705} Comfortably achievable"

  /** `verdict_text`: the message for a target CGPA, chosen by the two
      thresholds 9.5 and 9.0. */
  function Verdict(target: real): (v: string)
    ensures v == VeryDifficult <==> target >= 9.5
    ensures v == StrongPerformance <==> 9.0 <= target < 9.5
    ensures v == Comfortable <==> target < 9.0
  {
    if target >= 9.5 then VeryDifficult
    else if target >= 9.0 then StrongPerformance
    else Comfortable
  }

  /** A higher target never gets a milder verdict. */
  lemma VerdictMonotone(lo: real, hi: real)
    requires lo <= hi
    ensures Verdict(lo) == VeryDifficult ==> Verdict(hi) == VeryDifficult
    ensures Verdict(hi) == Comfortable ==> Verdict(lo) == Comfortable
  {
  }

  // --------------------------------------------------------------- the plan

  /** One line of the "Sample Subject-wise Plan". */
  datatype PlanEntry = PlanEntry(subject: Option<string>, credit: int, grade: string, mark: string)

  /** Lines 185-189 for one row: a theory subject of three or more credits
      gets A+, a lighter theory subject A, both with the mark the grade
      needs; any other subject gets A with no mark. */
  function Suggest(row: Row): (e: PlanEntry)
    ensures e.subject == row.subject && e.credit == row.credit
    ensures e.grade in GradePoints && e.grade in GradeToMark
    ensures row.kind == Some(Theory) && row.credit >= 3 ==> e.grade == "A+" && e.mark == "60+"
    ensures row.kind == Some(Theory) && row.credit < 3 ==> e.grade == "A" && e.mark == "55+"
    ensures row.kind != Some(Theory) ==> e.grade == "A" && e.mark == NoMark
    ensures row.kind == Some(Theory) ==> e.mark == GradeToMark[e.grade]
  {
    if row.kind == Some(Theory) then
      var grade := if row.credit >= 3 then "A+" else "A";
      PlanEntry(row.subject, row.credit, grade, GradeToMark[grade])
    else
      PlanEntry(row.subject, row.credit, "A", NoMark)
  }

  /** Lines 183-189: one plan entry per row, in table order. */
  function Plan(t: Table): (p: seq<PlanEntry>)
    ensures |p| == |t|
    ensures forall k :: 0 <= k < |t| ==> p[k] == Suggest(t[k])
  {
    seq(|t|, k requires 0 <= k < |t| => Suggest(t[k]))
  }

  /** Grade points the plan earns, weighted by credit. */
  function PlanPoints(p: seq<PlanEntry>): int
    requires forall k :: 0 <= k < |p| ==> p[k].grade in GradePoints
  {
    if |p| == 0 then 0
    else PlanPoints(p[..|p| - 1]) + GradePoints[p[|p| - 1].grade] * p[|p| - 1].credit
  }

  /** The plan never suggests less than A: with non-negative credits its
      credit-weighted grade points lie between 9 and 10 times the total
      credits, so following it reaches a CGPA of at least 9. */
  lemma {:induction false} PlanPointsBounds(t: Table)
    requires forall k :: 0 <= k < |t| ==> t[k].credit >= 0
    ensures 9 * TotalCredits(t) <= PlanPoints(Plan(t)) <= 10 * TotalCredits(t)
    decreases |t|
  {
    if |t| > 0 {
      var init := t[..|t| - 1];
      PlanPointsBounds(init);
      assert Plan(t)[..|t| - 1] == Plan(init);
    }
  }

  /** Planning a table piece by piece gives the same plan. */
  lemma PlanAppend(a: Table, b: Table)
    ensures Plan(a + b) == Plan(a) + Plan(b)
  {
  }
}

=== FILE: ocr.dfy ===
/** The step-1 parser that turns OCR text into subject rows (capp.py, lines
    51-70). The three regular expressions it uses are written out by hand:
      - `\b[1-4]\b` is `IsCreditAt`,
      - `\bU\d+\w+\b` is `IsCourseCode` applied to a maximal word,
      - `[0-9|_–\-]` is `IsSeparator`.
    Word characters are ASCII letters, digits and `_`. */
module Ocr {
  import opened Wrappers
  import opened Seqs
  import opened Text
  import opened Table

  // ------------------------------------------------------------ the credit

  /** `\b[1-4]\b` matches at `i`: a digit 1 to 4 with no word character on
      either side. */
  predicate IsCreditAt(s: string, i: int)
    requires 0 <= i < |s|
  {
    && '1' <= s[i] <= '4'
    && (i == 0 || !IsWordChar(s[i - 1]))
    && (i + 1 == |s| || !IsWordChar(s[i + 1]))
  }

  /** `re.findall(r"\b[1-4]\b", s)` from position `i` on, as the positions
      of the matches: increasing, each a match, and none missed. */
  function MatchesFrom(s: string, i: nat): (ms: seq<nat>)
    requires i <= |s|
    ensures forall k :: 0 <= k < |ms| ==> i <= ms[k] < |s| && IsCreditAt(s, ms[k])
    ensures forall j :: i <= j < |s| && IsCreditAt(s, j) ==> j in ms
    ensures StrictlyIncreasing(ms)
    decreases |s| - i
  {
    if i == |s| then []
    else
      var rest := MatchesFrom(s, i + 1);
      if IsCreditAt(s, i) then [i] + rest else rest
  }

  function CreditMatches(s: string): seq<nat> {
    MatchesFrom(s, 0)
  }

  /** The number a decimal digit stands for. */
  function DigitValue(c: char): int {
    c as int - '0' as int
  }

  /** `int(credit_match[-1])`, or nothing when `credit_match` is empty: the
      value of the last standalone digit 1 to 4. */
  function LastCredit(s: string): (c: Option<int>)
    ensures c.None? <==> forall j :: 0 <= j < |s| ==> !IsCreditAt(s, j)
    ensures c.Some? ==> 1 <= c.value <= 4
    ensures c.Some? ==> exists j :: (0 <= j < |s| && IsCreditAt(s, j)
      && c.value == DigitValue(s[j])
      && forall l :: j < l < |s| ==> !IsCreditAt(s, l))
  {
    var ms := CreditMatches(s);
    if |ms| == 0 then None
    else
      var j := ms[|ms| - 1];
      assert forall k :: 0 <= k < |ms| ==> ms[k] <= j;
      Some(DigitValue(s[j]))
  }

  // ------------------------------------------------------ the course codes

  /** Length of the leading run of word characters. */
  function WordRun(s: string): (n: nat)
    ensures n <= |s|
    ensures forall i :: 0 <= i < n ==> IsWordChar(s[i])
    ensures n == |s| || !IsWordChar(s[n])
    decreases |s|
  {
    if |s| > 0 && IsWordChar(s[0]) then 1 + WordRun(s[1..]) else 0
  }

  lemma {:induction false} WordRunUnique(s: string, n: nat)
    requires n <= |s|
    requires forall i :: 0 <= i < n ==> IsWordChar(s[i])
    requires n == |s| || !IsWordChar(s[n])
    ensures WordRun(s) == n
    decreases n
  {
    if n > 0 {
      WordRunUnique(s[1..], n - 1);
    }
  }

  /** The maximal word `s` starts with (empty when it starts otherwise). */
  function LeadingWord(s: string): string {
    s[..WordRun(s)]
  }

  /** A whole word that `U\d+\w+` matches: "U", a digit, then at least one
      more word character. */
  predicate IsCourseCode(w: string) {
    && |w| >= 3
    && w[0] == 'U'
    && IsDigit(w[1])
    && forall i :: 0 <= i < |w| ==> IsWordChar(w[i])
  }

  /** A word starts at `i` (the `\b` in front of a word character). */
  predicate WordStartAt(s: string, i: int)
    requires 0 <= i < |s|
  {
    IsWordChar(s[i]) && (i == 0 || !IsWordChar(s[i - 1]))
  }

  /** `\bU\d+\w+\b` matches at `i`. */
  predicate HasCourseCodeAt(s: string, i: int)
    requires 0 <= i < |s|
  {
    WordStartAt(s, i) && IsCourseCode(LeadingWord(s[i..]))
  }

  /** `\bU\d+\w+\b` matches nowhere in `s`. */
  predicate CodeFree(s: string) {
    forall i :: 0 <= i < |s| ==> !HasCourseCodeAt(s, i)
  }

  /** The characters of `s` that are not word characters, in order. */
  function NonWord(s: string): string {
    if |s| == 0 then [] else (if IsWordChar(s[0]) then [] else [s[0]]) + NonWord(s[1..])
  }

  lemma {:induction false} NonWordAppend(a: string, b: string)
    ensures NonWord(a + b) == NonWord(a) + NonWord(b)
    decreases |a|
  {
    if |a| == 0 {
      assert a + b == b;
    } else {
      assert (a + b)[1..] == a[1..] + b;
      NonWordAppend(a[1..], b);
    }
  }

  lemma {:induction false} NonWordOfWord(w: string)
    requires forall i :: 0 <= i < |w| ==> IsWordChar(w[i])
    ensures NonWord(w) == []
    decreases |w|
  {
    if |w| > 0 {
      NonWordOfWord(w[1..]);
    }
  }

  /** `re.sub(r"\bU\d+\w+\b", "", s)`: every course-code word removed. Only
      word characters go (every other character stays, in order), the result
      is free of course codes, and it is made of characters of `s`. */
  function StripCodes(s: string): (r: string)
    ensures |r| <= |s|
    ensures forall c :: c in r ==> c in s
    ensures NonWord(r) == NonWord(s)
    ensures |s| > 0 && !IsWordChar(s[0]) ==> |r| > 0 && r[0] == s[0]
    ensures CodeFree(r)
    decreases |s|
  {
    if |s| == 0 then []
    else if IsWordChar(s[0]) then
      var w := LeadingWord(s);
      var rest := StripCodes(s[|w|..]);
      assert forall c :: c in s[|w|..] ==> c in s;
      StripWordNonWord(s, w, rest);
      if IsCourseCode(w) then rest
      else
        CodeFreeAfterWord(w, rest);
        w + rest
    else
      var rest := StripCodes(s[1..]);
      CodeFreeAfterNonWord(s[0], rest);
      NonWordAppend([s[0]], rest);
      NonWordAppend([s[0]], s[1..]);
      assert s == [s[0]] + s[1..];
      [s[0]] + rest
  }

  /** Dropping or keeping the leading word loses no other character. */
  lemma StripWordNonWord(s: string, w: string, rest: string)
    requires |s| > 0 && w == LeadingWord(s)
    requires NonWord(rest) == NonWord(s[|w|..])
    ensures NonWord(rest) == NonWord(s)
    ensures NonWord(w + rest) == NonWord(s)
  {
    NonWordOfWord(w);
    SplitAt(s, |w|);
    NonWordAppend(w, s[|w|..]);
    NonWordAppend(w, rest);
  }

  /** A word that is not a course code, then code-free text that does not
      continue the word, is code-free. */
  lemma CodeFreeAfterWord(w: string, t: string)
    requires |w| > 0 && forall i :: 0 <= i < |w| ==> IsWordChar(w[i])
    requires !IsCourseCode(w)
    requires |t| == 0 || !IsWordChar(t[0])
    requires CodeFree(t)
    ensures CodeFree(w + t)
  {
    var s := w + t;
    WordRunUnique(s, |w|);
    assert s[0..] == s;
    assert LeadingWord(s) == w;
    forall i | 0 <= i < |s| && WordStartAt(s, i)
      ensures !HasCourseCodeAt(s, i)
    {
      if i > |w| {
        var j := i - |w|;
        assert s[i - 1] == t[j - 1];
        assert s[i..] == t[j..];
        assert WordStartAt(t, j);
        assert !HasCourseCodeAt(t, j);
      }
    }
  }

  /** A non-word character in front of code-free text keeps it code-free. */
  lemma CodeFreeAfterNonWord(c: char, t: string)
    requires !IsWordChar(c)
    requires CodeFree(t)
    ensures CodeFree([c] + t)
  {
    var s := [c] + t;
    forall i | 0 < i < |s| && WordStartAt(s, i)
      ensures !HasCourseCodeAt(s, i)
    {
      assert s[i..] == t[i - 1..];
      assert WordStartAt(t, i - 1);
      assert !HasCourseCodeAt(t, i - 1);
    }
  }

  /** Text without course codes is left alone, so removing them twice is
      the same as once. */
  lemma {:induction false} StripCodesFixpoint(s: string)
    requires CodeFree(s)
    ensures StripCodes(s) == s
    decreases |s|
  {
    if |s| > 0 {
      if IsWordChar(s[0]) {
        var w := LeadingWord(s);
        CodeFreeHead(s);
        var t := s[|w|..];
        CodeFreeSuffix(s, |w|);
        StripCodesFixpoint(t);
        SplitAt(s, |w|);
      } else {
        var t := s[1..];
        CodeFreeSuffix(s, 1);
        StripCodesFixpoint(t);
        SplitAt(s, 1);
        assert s[..1] == [s[0]];
      }
    }
  }

  /** The word code-free text starts with is no course code. */
  lemma CodeFreeHead(s: string)
    requires CodeFree(s)
    requires |s| > 0 && IsWordChar(s[0])
    ensures !IsCourseCode(LeadingWord(s))
  {
    assert WordStartAt(s, 0);
    assert s[0..] == s;
    assert !HasCourseCodeAt(s, 0);
  }

  /** Cutting code-free text at a word boundary leaves code-free text. */
  lemma CodeFreeSuffix(s: string, n: nat)
    requires CodeFree(s)
    requires 0 < n <= |s|
    requires n < |s| ==> !IsWordChar(s[n - 1]) || !IsWordChar(s[n])
    ensures CodeFree(s[n..])
  {
    var t := s[n..];
    forall j | 0 <= j < |t| && WordStartAt(t, j)
      ensures !HasCourseCodeAt(t, j)
    {
      assert t[j] == s[n + j];
      assert j > 0 ==> t[j - 1] == s[n + j - 1];
      assert t[j..] == s[n + j..];
      assert WordStartAt(s, n + j);
      assert !HasCourseCodeAt(s, n + j);
    }
  }

  lemma StripCodesIdempotent(s: string)
    ensures StripCodes(StripCodes(s)) == StripCodes(s)
  {
    StripCodesFixpoint(StripCodes(s));
  }

  // ------------------------------------------------------ the separators

  /** A character of the class `[0-9|_–\-]` (the dash U+2013 included). */
  predicate IsSeparator(c: char) {
    IsDigit(c) || c == '|' || c == '_' || c == '\U{2013}' || c == '-'
  }

  /** `re.sub(r"[0-9|_–\-]", " ", s)`: each separator becomes a space in
      place; nothing else moves or changes. */
  function ReplaceSeparators(s: string): (r: string)
    ensures |r| == |s|
    ensures forall i :: 0 <= i < |s| && IsSeparator(s[i]) ==> r[i] == ' '
    ensures forall i :: 0 <= i < |s| && !IsSeparator(s[i]) ==> r[i] == s[i]
    ensures forall c :: c in r ==> !IsSeparator(c)
    decreases |s|
  {
    if |s| == 0 then []
    else [if IsSeparator(s[0]) then ' ' else s[0]] + ReplaceSeparators(s[1..])
  }

  // ------------------------------------------------------------ the lines

  /** What a kept subject looks like: single-spaced, no whitespace at the
      ends, and none of the separator characters. */
  predicate CleanText(s: string) {
    Normalized(s) && forall i :: 0 <= i < |s| ==> !IsSeparator(s[i])
  }

  /** Lines 62-64: the subject text of a (stripped) line. It has no course
      code, no separator and no stray whitespace, and it is the remaining
      words joined by single spaces. */
  function CleanSubject(line: string): (r: string)
    ensures CleanText(r)
    ensures r == JoinSpaced(SplitWhitespace(ReplaceSeparators(StripCodes(line))))
  {
    var spaced := ReplaceSeparators(StripCodes(line));
    NormalizeIsJoinSplit(spaced);
    NormalizeKeepsOutSeparators(spaced);
    Normalize(spaced)
  }

  /** Normalizing text without separators gives clean text. */
  lemma NormalizeKeepsOutSeparators(s: string)
    requires forall c :: c in s ==> !IsSeparator(c)
    ensures CleanText(Normalize(s))
  {
    NormalizeChars(s);
  }

  /** A subject and credit read from one line. */
  datatype Entry = Entry(subject: string, credit: int)

  /** What every kept line yields. */
  predicate ValidEntry(e: Entry) {
    CleanText(e.subject) && |e.subject| > 5 && 1 <= e.credit <= 4
  }

  /** Lines 53-67 for one line: strip it; drop it when blank or without a
      standalone digit 1 to 4; else keep the cleaned subject with the last
      such digit as credit when the subject is longer than five characters. */
  function ParseLine(raw: string): (r: Option<Entry>)
    ensures r.Some? <==> LastCredit(Strip(raw)).Some? && |CleanSubject(Strip(raw))| > 5
    ensures r.Some? ==> ValidEntry(r.value)
    ensures r.Some? ==> r.value.credit == LastCredit(Strip(raw)).value
    ensures r.Some? ==> r.value.subject == CleanSubject(Strip(raw))
  {
    var line := Strip(raw);
    if |line| == 0 then None
    else
      match LastCredit(line)
      case None => None
      case Some(credit) =>
        var subject := CleanSubject(line);
        if |subject| > 5 then Some(Entry(subject, credit)) else None
  }

  /** A line yields a row only when it is not blank after stripping and has
      a standalone digit 1 to 4; the credit is the last such digit. */
  lemma ParseLineNeedsCredit(raw: string)
    ensures ParseLine(raw).Some? ==> |Strip(raw)| > 0
    ensures ParseLine(raw).Some? ==> exists j :: (0 <= j < |Strip(raw)| && IsCreditAt(Strip(raw), j)
      && ParseLine(raw).value.credit == DigitValue(Strip(raw)[j])
      && forall l :: j < l < |Strip(raw)| ==> !IsCreditAt(Strip(raw), l))
  {
  }

  /** `df.insert(0, "S.No", range(1, len(df) + 1))` over the kept entries:
      row k is numbered k + 1, typed "Theory", and carries the k-th entry. */
  function Number(es: seq<Entry>): (t: Table)
    ensures |t| == |es| && Clean(t)
    ensures forall k :: 0 <= k < |t| ==>
      t[k] == Row(k + 1, Some(es[k].subject), es[k].credit, Some(Theory))
  {
    seq(|es|, k requires 0 <= k < |es| => Row(k + 1, Some(es[k].subject), es[k].credit, Some(Theory)))
  }

  predicate AllValid(es: seq<Entry>) {
    forall k :: 0 <= k < |es| ==> ValidEntry(es[k])
  }

  /** Everything `ParseLine` keeps from a list of lines is a valid entry. */
  lemma {:induction false} KeptEntriesValid(lines: seq<string>)
    ensures AllValid(FilterMap(ParseLine, lines))
    decreases |lines|
  {
    if |lines| > 0 {
      var init := lines[..|lines| - 1];
      var last := lines[|lines| - 1];
      KeptEntriesValid(init);
      var kept := FilterMap(ParseLine, init);
      var r := ParseLine(last);
      assert FilterMap(ParseLine, lines) == if r.Some? then kept + [r.value] else kept;
      if r.Some? {
        AllValidSnoc(kept, r.value);
      }
    }
  }

  lemma AllValidSnoc(es: seq<Entry>, e: Entry)
    requires AllValid(es) && ValidEntry(e)
    ensures AllValid(es + [e])
  {
    var es' := es + [e];
    assert forall k :: 0 <= k < |es| ==> es'[k] == es[k];
  }

  /** The entries the lines of `text` yield, in line order. */
  function Entries(text: string): seq<Entry> {
    FilterMap(ParseLine, SplitLines(text))
  }

  /** Lines 51-70: split the text on newlines, keep what each line yields,
      and number the rows 1..n. Every row is typed "Theory", has a valid
      subject and a credit 1 to 4, and there are no more rows than lines. */
  function ParseText(text: string): (t: Table)
    ensures Clean(t)
    ensures |t| <= Newlines(text) + 1
    ensures forall k :: 0 <= k < |t| ==>
      && t[k].kind == Some(Theory)
      && t[k].subject.Some?
      && ValidEntry(Entry(t[k].subject.value, t[k].credit))
  {
    JoinSplitLines(text);
    KeptEntriesValid(SplitLines(text));
    Number(Entries(text))
  }

  /** The rows keep the order of the lines they come from: row k carries
      what line ix[k] yields, the ix increase, and every line without a row
      is one that `ParseLine` drops. */
  lemma ParseTextKeepsLineOrder(text: string)
    ensures |ParseText(text)| == |Entries(text)|
    ensures forall k :: 0 <= k < |ParseText(text)| ==>
      ParseText(text)[k].subject == Some(Entries(text)[k].subject)
      && ParseText(text)[k].credit == Entries(text)[k].credit
    ensures Traces(ParseLine, SplitLines(text), Entries(text), Origins(ParseLine, SplitLines(text)))
  {
  }

  /** Row k is what `ParseLine` reads from line ix[k] of the text: its
      subject is that line's cleaned subject and its credit the line's last
      standalone digit 1 to 4. */
  lemma ParseTextRowsFromLines(text: string)
    ensures var lines := SplitLines(text);
      var ix := Origins(ParseLine, lines);
      && |ix| == |ParseText(text)|
      && forall k :: 0 <= k < |ix| ==>
        && ix[k] < |lines|
        && ParseText(text)[k].subject == Some(CleanSubject(Strip(lines[ix[k]])))
        && ParseText(text)[k].credit == LastCredit(Strip(lines[ix[k]])).value
  {
    var lines := SplitLines(text);
    var ix := Origins(ParseLine, lines);
    var t := ParseText(text);
    var es := Entries(text);
    assert Traces(ParseLine, lines, es, ix);
    forall k | 0 <= k < |ix|
      ensures ix[k] < |lines|
      ensures t[k].subject == Some(CleanSubject(Strip(lines[ix[k]])))
      ensures t[k].credit == LastCredit(Strip(lines[ix[k]])).value
    {
      KeptEntryOfLine(lines[ix[k]], es[k]);
    }
  }

  lemma KeptEntryOfLine(line: string, e: Entry)
    ensures ParseLine(line) == Some(e) ==>
      e.subject == CleanSubject(Strip(line)) && e.credit == LastCredit(Strip(line)).value
  {
  }

  /** The parsed table is already what the step-2 clean-up produces. */
  lemma ParseTextIsClean(text: string)
    ensures Cleanup(ParseText(text)) == ParseText(text)
  {
    CleanupOfClean(ParseText(text));
  }
}

=== FILE: seqs.dfy ===
/** Order-preserving filtering of sequences, the shape shared by the OCR
    line parser (a line either yields a row or is dropped) and the table
    clean-up (a row either keeps its subject or is dropped). */
module Seqs {
  import opened Wrappers

  /** Applies `f` to every element and keeps the `Some` results, in order. */
  function FilterMap<A, B>(f: A -> Option<B>, xs: seq<A>): (r: seq<B>)
    ensures |r| <= |xs|
    ensures forall x :: x in xs && f(x).Some? ==> f(x).value in r
  {
    if |xs| == 0 then []
    else
      var init := xs[..|xs| - 1];
      assert xs == init + [xs[|xs| - 1]];
      match f(xs[|xs| - 1])
      case Some(y) => FilterMap(f, init) + [y]
      case None => FilterMap(f, init)
  }

  predicate StrictlyIncreasing(ix: seq<nat>) {
    forall k, l :: 0 <= k < l < |ix| ==> ix[k] < ix[l]
  }

  /** `ix` lists the positions in `xs` whose elements `f` keeps, in
      increasing order, and `ys` is what `f` makes of them: the k-th of `ys`
      comes from the ix[k]-th of `xs`, and every element `f` keeps is
      listed. */
  ghost predicate Traces<A, B>(f: A -> Option<B>, xs: seq<A>, ys: seq<B>, ix: seq<nat>) {
    && |ix| == |ys|
    && StrictlyIncreasing(ix)
    && (forall k :: 0 <= k < |ix| ==> ix[k] < |xs| && f(xs[ix[k]]) == Some(ys[k]))
    && (forall j :: 0 <= j < |xs| && f(xs[j]).Some? ==> j in ix)
  }

  /** Adding one element at the end extends a trace. */
  lemma TracesExtend<A, B>(f: A -> Option<B>, xs: seq<A>, ys: seq<B>, ix: seq<nat>, x: A)
    requires Traces(f, xs, ys, ix)
    ensures f(x).Some? ==> Traces(f, xs + [x], ys + [f(x).value], ix + [|xs|])
    ensures f(x).None? ==> Traces(f, xs + [x], ys, ix)
  {
    var xs' := xs + [x];
    assert forall i :: 0 <= i < |xs| ==> xs'[i] == xs[i];
  }

  /** The positions in `xs` of the elements that `FilterMap` keeps. */
  function Origins<A, B>(f: A -> Option<B>, xs: seq<A>): (ix: seq<nat>)
    ensures Traces(f, xs, FilterMap(f, xs), ix)
  {
    if |xs| == 0 then []
    else
      var init := xs[..|xs| - 1];
      var x := xs[|xs| - 1];
      assert xs == init + [x];
      var prior := Origins(f, init);
      TracesExtend(f, init, FilterMap(f, init), prior, x);
      match f(x)
      case Some(_) => prior + [|init|]
      case None => prior
  }

  /** A sequence is its prefix followed by the rest. */
  lemma SplitAt<T>(s: seq<T>, n: nat)
    requires n <= |s|
    ensures s == s[..n] + s[n..]
  {
  }
}

=== FILE: table.dfy ===
/** The subject table the wizard carries from step to step, and the step-2
    clean-up and summary (capp.py, lines 95-101). A row's position is its
    identity: `sno` ("S.No") is rewritten whenever the table changes. */
module Table {
  import opened Wrappers
  import opened Seqs

  /** The choices of the "Type" column of the editing grid. */
  datatype Kind = Theory | Lab | Internship | Project

  /** One row of the table. The grid lets the user add rows whose "Subject"
      or "Type" cell stays empty, hence the options. */
  datatype Row = Row(sno: int, subject: Option<string>, credit: int, kind: Option<Kind>)

  type Table = seq<Row>

  /** "S.No" counts 1, 2, ..., n down the table. */
  predicate Numbered(t: Table) {
    forall k :: 0 <= k < |t| ==> t[k].sno == k + 1
  }

  /** Numbered, and every row has a subject. */
  predicate Clean(t: Table) {
    Numbered(t) && forall k :: 0 <= k < |t| ==> t[k].subject.Some?
  }

  /** Sets "S.No" to 1..n, changing nothing else. */
  function Renumber(t: Table): (r: Table)
    ensures |r| == |t|
    ensures Numbered(r)
    ensures forall k :: 0 <= k < |t| ==> r[k] == t[k].(sno := k + 1)
  {
    seq(|t|, k requires 0 <= k < |t| => t[k].(sno := k + 1))
  }

  /** The row itself when it has a subject; the `FilterMap` step of
      `dropna(subset=["Subject"])`. */
  function KeepNamed(row: Row): Option<Row> {
    if row.subject.Some? then Some(row) else None
  }

  /** The rows that have a subject, in their original order. */
  function DropUnnamed(t: Table): Table {
    FilterMap(KeepNamed, t)
  }

  /** `dropna(subset=["Subject"]).reset_index(drop=True)` followed by
      renumbering "S.No". The k-th row of the result is the row of `t` at
      position ix[k] with only its number changed, the positions increase,
      and every row left out had no subject. */
  function Cleanup(t: Table): (r: Table)
    ensures Clean(r)
    ensures |r| <= |t|
    ensures var ix := Origins(KeepNamed, t);
      && |ix| == |r|
      && StrictlyIncreasing(ix)
      && (forall k :: 0 <= k < |r| ==> ix[k] < |t| && r[k] == t[ix[k]].(sno := k + 1))
      && (forall j :: 0 <= j < |t| && t[j].subject.Some? ==> j in ix)
  {
    DropUnnamedOrigins(t);
    Renumber(DropUnnamed(t))
  }

  /** Each kept row is the row of `t` at its origin, and every named row
      has one. */
  lemma DropUnnamedOrigins(t: Table)
    ensures var kept := DropUnnamed(t); var ix := Origins(KeepNamed, t);
      && |ix| == |kept|
      && StrictlyIncreasing(ix)
      && (forall k :: 0 <= k < |kept| ==> ix[k] < |t| && kept[k] == t[ix[k]])
      && (forall j :: 0 <= j < |t| && t[j].subject.Some? ==> j in ix)
  {
    var kept := DropUnnamed(t);
    var ix := Origins(KeepNamed, t);
    assert forall k :: 0 <= k < |kept| ==> KeepNamed(t[ix[k]]) == Some(kept[k]);
    assert forall j :: 0 <= j < |t| && t[j].subject.Some? ==> KeepNamed(t[j]).Some?;
  }

  /** Cleaning a clean table changes nothing. */
  lemma {:induction false} CleanupOfClean(t: Table)
    requires Clean(t)
    ensures Cleanup(t) == t
  {
    KeepAllNamed(t);
    assert Renumber(t) == t;
  }

  lemma {:induction false} KeepAllNamed(t: Table)
    requires forall k :: 0 <= k < |t| ==> t[k].subject.Some?
    ensures DropUnnamed(t) == t
    decreases |t|
  {
    if |t| > 0 {
      var init := t[..|t| - 1];
      KeepAllNamed(init);
      assert t == init + [t[|t| - 1]];
    }
  }

  lemma CleanupIdempotent(t: Table)
    ensures Cleanup(Cleanup(t)) == Cleanup(t)
  {
    CleanupOfClean(Cleanup(t));
  }

  // ---------------------------------------------------------------- summary

  /** The sum of the "Credit" column. */
  function TotalCredits(t: Table): int
  {
    if |t| == 0 then 0 else TotalCredits(t[..|t| - 1]) + t[|t| - 1].credit
  }

  /** Rows whose "Type" is exactly "Theory"; an empty cell does not count. */
  function TheoryCount(t: Table): nat
  {
    if |t| == 0 then 0
    else TheoryCount(t[..|t| - 1]) + (if t[|t| - 1].kind == Some(Theory) then 1 else 0)
  }

  /** Rows whose "Type" is anything but "Theory", empty included. */
  function OtherCount(t: Table): nat
  {
    if |t| == 0 then 0
    else OtherCount(t[..|t| - 1]) + (if t[|t| - 1].kind == Some(Theory) then 0 else 1)
  }

  /** The figures shown under the editing grid. */
  datatype Summary = Summary(subjects: int, credits: int, theory: int, labsOther: int)

  /** Summary of the cleaned edits: as many subjects as rows that have one,
      their credits summed, the theory rows among them, and the rest
      counted as labs/other. */
  function Summarize(edited: Table): (s: Summary)
    ensures s.subjects == |Cleanup(edited)|
    ensures s.credits == NamedCredits(edited)
    ensures s.theory == NamedTheory(edited)
    ensures s.theory + s.labsOther == s.subjects
    ensures 0 <= s.theory <= s.subjects
    ensures s.labsOther == OtherCount(Cleanup(edited))
  {
    var t := Cleanup(edited);
    TheoryPlusOther(t);
    SummaryCountsNamedRows(edited);
    Summary(|t|, TotalCredits(t), TheoryCount(t), |t| - TheoryCount(t))
  }

  lemma {:induction false} TheoryPlusOther(t: Table)
    ensures TheoryCount(t) + OtherCount(t) == |t|
    decreases |t|
  {
    if |t| > 0 {
      TheoryPlusOther(t[..|t| - 1]);
    }
  }

  /** Credits and theory rows of the cleaned table are those of the rows of
      the edited table that have a subject: renumbering and dropping
      unnamed rows lose nothing else. */
  lemma SummaryCountsNamedRows(t: Table)
    ensures TotalCredits(Cleanup(t)) == NamedCredits(t)
    ensures TheoryCount(Cleanup(t)) == NamedTheory(t)
  {
    DropUnnamedCounts(t);
    RenumberCounts(DropUnnamed(t));
  }

  lemma {:induction false} DropUnnamedCounts(t: Table)
    ensures TotalCredits(DropUnnamed(t)) == NamedCredits(t)
    ensures TheoryCount(DropUnnamed(t)) == NamedTheory(t)
    decreases |t|
  {
    if |t| > 0 {
      var init := t[..|t| - 1];
      var last := t[|t| - 1];
      DropUnnamedCounts(init);
      var kept := DropUnnamed(init);
      if last.subject.Some? {
        assert DropUnnamed(t) == kept + [last];
        assert (kept + [last])[..|kept|] == kept;
      } else {
        assert DropUnnamed(t) == kept;
      }
    }
  }

  /** Renumbering leaves credits and kinds alone. */
  lemma {:induction false} RenumberCounts(t: Table)
    ensures TotalCredits(Renumber(t)) == TotalCredits(t)
    ensures TheoryCount(Renumber(t)) == TheoryCount(t)
    decreases |t|
  {
    if |t| > 0 {
      var init := t[..|t| - 1];
      RenumberCounts(init);
      assert Renumber(t)[..|t| - 1] == Renumber(init);
    }
  }

  /** Sum of the credits of the rows that have a subject. */
  function NamedCredits(t: Table): int
  {
    if |t| == 0 then 0
    else NamedCredits(t[..|t| - 1]) + (if t[|t| - 1].subject.Some? then t[|t| - 1].credit else 0)
  }

  /** Number of theory rows that have a subject. */
  function NamedTheory(t: Table): nat
  {
    if |t| == 0 then 0
    else
      var last := t[|t| - 1];
      NamedTheory(t[..|t| - 1]) + (if last.subject.Some? && last.kind == Some(Theory) then 1 else 0)
  }
}

=== FILE: text.dfy ===
/** Python string primitives the line parser is built from: character
    classes, `str.strip`, `str.split("\n")` and the `\s+` -> " " rewrite,
    written out on `seq<char>` instead of through a regular-expression engine.
    A `char` is a Unicode scalar value. A Python `str` element is a code
    point, so lone surrogates are not modelled. */
module Text {

  /** Whitespace exactly as Python's `str.isspace` sees it; `\s` in a `str`
      regular expression matches the same characters, so `strip()` and the
      `\s+` rewrite share this one predicate. */
  predicate IsSpace(c: char) {
    ('\t' <= c <= '\r') || ('\U{1C}' <= c <= '\U{1F}') || c == ' '
    || c == '\U{85}' || c == '\U{A0}' || c == '\U{1680}'
    || ('\U{2000}' <= c <= '\U{200A}') || c == '\U{2028}' || c == '\U{2029}'
    || c == '\U{202F}' || c == '\U{205F}' || c == '\U{3000}'
  }

  predicate IsDigit(c: char) {
    '0' <= c <= '9'
  }

  /** A regular-expression word character (`\w`), restricted to ASCII. */
  predicate IsWordChar(c: char) {
    ('a' <= c <= 'z') || ('A' <= c <= 'Z') || IsDigit(c) || c == '_'
  }

  predicate AllSpace(s: string) {
    forall i :: 0 <= i < |s| ==> IsSpace(s[i])
  }

  /** The characters of `s` that are not whitespace, in order. */
  function NonSpace(s: string): string
  {
    if |s| == 0 then []
    else (if IsSpace(s[0]) then [] else [s[0]]) + NonSpace(s[1..])
  }

  lemma {:induction false} NonSpaceAppend(a: string, b: string)
    ensures NonSpace(a + b) == NonSpace(a) + NonSpace(b)
    decreases |a|
  {
    if |a| == 0 {
      assert a + b == b;
    } else {
      assert (a + b)[1..] == a[1..] + b;
      NonSpaceAppend(a[1..], b);
    }
  }

  // ---------------------------------------------------------------- strip

  /** `str.lstrip()`: the suffix left after dropping leading whitespace. */
  function TrimStart(s: string): (r: string)
    ensures |r| <= |s| && r == s[|s| - |r|..]
    ensures |r| == 0 || !IsSpace(r[0])
    decreases |s|
  {
    if |s| > 0 && IsSpace(s[0]) then TrimStart(s[1..]) else s
  }

  /** `str.lstrip()` leaves nothing exactly when `s` is blank. */
  lemma {:induction false} TrimStartEmpty(s: string)
    ensures |TrimStart(s)| == 0 <==> AllSpace(s)
    decreases |s|
  {
    if |s| > 0 {
      if IsSpace(s[0]) {
        TrimStartEmpty(s[1..]);
        AllSpaceCons(s);
      } else {
        assert !IsSpace(s[0]);
      }
    }
  }

  lemma AllSpaceCons(s: string)
    requires |s| > 0
    ensures AllSpace(s) <==> IsSpace(s[0]) && AllSpace(s[1..])
  {
    assert forall i :: 1 <= i < |s| ==> s[i] == s[1..][i - 1];
  }

  lemma AllSpaceSnoc(s: string)
    requires |s| > 0
    ensures AllSpace(s) <==> AllSpace(s[..|s| - 1]) && IsSpace(s[|s| - 1])
  {
    assert forall i :: 0 <= i < |s| - 1 ==> s[i] == s[..|s| - 1][i];
  }

  /** What `str.lstrip()` drops is whitespace. */
  lemma {:induction false} TrimStartDrops(s: string)
    ensures AllSpace(s[..|s| - |TrimStart(s)|])
    decreases |s|
  {
    if |s| > 0 && IsSpace(s[0]) {
      var tail := s[1..];
      TrimStartDrops(tail);
      var k := |s| - |TrimStart(s)|;
      assert s[..k] == [s[0]] + tail[..k - 1];
    }
  }

  lemma {:induction false} TrimStartNonSpace(s: string)
    ensures NonSpace(TrimStart(s)) == NonSpace(s)
    decreases |s|
  {
    if |s| > 0 && IsSpace(s[0]) {
      TrimStartNonSpace(s[1..]);
    }
  }

  /** `str.rstrip()`: the prefix left after dropping trailing whitespace. */
  function TrimEnd(s: string): (r: string)
    ensures |r| <= |s| && r == s[..|r|]
    ensures |r| == 0 || !IsSpace(r[|r| - 1])
    decreases |s|
  {
    if |s| > 0 && IsSpace(s[|s| - 1]) then TrimEnd(s[..|s| - 1]) else s
  }

  /** What `str.rstrip()` drops is whitespace. */
  lemma {:induction false} TrimEndDrops(s: string)
    ensures AllSpace(s[|TrimEnd(s)|..])
    decreases |s|
  {
    if |s| > 0 && IsSpace(s[|s| - 1]) {
      var init := s[..|s| - 1];
      TrimEndDrops(init);
      var k := |TrimEnd(s)|;
      assert s[k..] == init[k..] + [s[|s| - 1]];
    }
  }

  /** `str.rstrip()` leaves nothing exactly when `s` is blank. */
  lemma {:induction false} TrimEndEmpty(s: string)
    ensures |TrimEnd(s)| == 0 <==> AllSpace(s)
    decreases |s|
  {
    if |s| > 0 {
      if IsSpace(s[|s| - 1]) {
        TrimEndEmpty(s[..|s| - 1]);
        AllSpaceSnoc(s);
      } else {
        assert !IsSpace(s[|s| - 1]);
      }
    }
  }

  lemma {:induction false} TrimEndNonSpace(s: string)
    ensures NonSpace(TrimEnd(s)) == NonSpace(s)
    decreases |s|
  {
    if |s| > 0 && IsSpace(s[|s| - 1]) {
      var init := s[..|s| - 1];
      TrimEndNonSpace(init);
      assert s == init + [s[|s| - 1]];
      NonSpaceAppend(init, [s[|s| - 1]]);
    }
  }

  /** No whitespace at either end. */
  predicate Trimmed(s: string) {
    |s| == 0 || (!IsSpace(s[0]) && !IsSpace(s[|s| - 1]))
  }

  /** `str.strip()`: `s` without its leading and trailing whitespace. The
      result keeps every non-whitespace character, is empty exactly when `s`
      is blank, and leaves an already trimmed string alone. */
  function Strip(s: string): (r: string)
    ensures Trimmed(r)
    ensures NonSpace(r) == NonSpace(s)
    ensures |r| == 0 <==> AllSpace(s)
    ensures Trimmed(s) ==> r == s
  {
    StripEnds(s);
    StripBlank(s);
    StripTrimmed(s);
    TrimStartNonSpace(s);
    TrimEndNonSpace(TrimStart(s));
    TrimEnd(TrimStart(s))
  }

  /** `r` is `s` with a blank prefix and a blank suffix cut off. */
  predicate StripsTo(s: string, r: string) {
    exists i, j :: 0 <= i <= j <= |s| && r == s[i..j] && AllSpace(s[..i]) && AllSpace(s[j..])
  }

  /** `str.strip()` cuts only whitespace, and only at the two ends. */
  lemma StripIsSlice(s: string)
    ensures StripsTo(s, Strip(s))
  {
    var front := TrimStart(s);
    var r := TrimEnd(front);
    var i := |s| - |front|;
    var j := i + |r|;
    TrimStartDrops(s);
    TrimEndDrops(front);
    assert r == s[i..j];
    assert s[j..] == front[|r|..];
  }

  lemma StripEnds(s: string)
    ensures Trimmed(TrimEnd(TrimStart(s)))
  {
    var front := TrimStart(s);
    var r := TrimEnd(front);
    assert |r| > 0 ==> r[0] == front[0];
  }

  lemma StripBlank(s: string)
    ensures |TrimEnd(TrimStart(s))| == 0 <==> AllSpace(s)
  {
    var front := TrimStart(s);
    TrimStartEmpty(s);
    TrimEndEmpty(front);
    if |front| > 0 {
      assert !IsSpace(front[0]);
    }
  }

  lemma StripTrimmed(s: string)
    ensures Trimmed(s) ==> TrimEnd(TrimStart(s)) == s
  {
  }

  // ------------------------------------------------------------ split lines

  /** `s.split("\n")`: the pieces between newlines; there is always at least
      one, and none of them holds a newline. */
  function SplitLines(s: string): (lines: seq<string>)
    ensures |lines| >= 1
    ensures forall k :: 0 <= k < |lines| ==> '\n' !in lines[k]
    decreases |s|
  {
    if |s| == 0 then [""]
    else
      var rest := SplitLines(s[1..]);
      if s[0] == '\n' then [""] + rest
      else [[s[0]] + rest[0]] + rest[1..]
  }

  /** `"\n".join(lines)`. */
  function JoinLines(lines: seq<string>): string
    requires |lines| >= 1
  {
    if |lines| == 1 then lines[0] else lines[0] + "\n" + JoinLines(lines[1..])
  }

  /** Number of newline characters in `s`. */
  function Newlines(s: string): nat
  {
    if |s| == 0 then 0 else (if s[0] == '\n' then 1 else 0) + Newlines(s[1..])
  }

  /** Splitting then joining gives back the text, and there is one more
      line than there are newlines. */
  lemma {:induction false} JoinSplitLines(s: string)
    ensures JoinLines(SplitLines(s)) == s
    ensures |SplitLines(s)| == Newlines(s) + 1
    decreases |s|
  {
    if |s| > 0 {
      var rest := SplitLines(s[1..]);
      JoinSplitLines(s[1..]);
      if s[0] == '\n' {
        assert ([""] + rest)[1..] == rest;
        assert s == "" + "\n" + s[1..];
      } else if |rest| == 1 {
        assert s == [s[0]] + s[1..];
      } else {
        var lines := [[s[0]] + rest[0]] + rest[1..];
        assert lines[1..] == rest[1..];
        assert s[1..] == rest[0] + "\n" + JoinLines(rest[1..]);
        assert s == [s[0]] + s[1..];
      }
    }
  }

  /** Joining newline-free pieces and splitting again gives back the pieces. */
  lemma {:induction false} SplitJoinLines(lines: seq<string>)
    requires |lines| >= 1
    requires forall k :: 0 <= k < |lines| ==> '\n' !in lines[k]
    ensures SplitLines(JoinLines(lines)) == lines
    decreases |lines|, |lines[0]|
  {
    if |lines[0]| == 0 {
      if |lines| > 1 {
        var s := JoinLines(lines);
        assert s == "\n" + JoinLines(lines[1..]);
        assert s[1..] == JoinLines(lines[1..]);
        SplitJoinLines(lines[1..]);
        assert lines == [""] + lines[1..];
      }
    } else {
      var s := JoinLines(lines);
      var first := lines[0];
      var lines' := [first[1..]] + lines[1..];
      assert lines'[1..] == lines[1..];
      assert '\n' !in first[1..] by {
        assert forall c :: c in first[1..] ==> c in first;
      }
      assert JoinLines(lines') == s[1..] by {
        if |lines| == 1 {
          assert s == first;
        } else {
          assert s == first + "\n" + JoinLines(lines[1..]);
          assert s[1..] == first[1..] + "\n" + JoinLines(lines[1..]);
        }
      }
      SplitJoinLines(lines');
      assert s[0] == first[0];
      assert first[0] != '\n';
      assert [first[0]] + first[1..] == first;
    }
  }

  // ------------------------------------------------------- whitespace runs

  /** Every whitespace character is a plain space and no two are adjacent. */
  predicate SingleSpaced(s: string) {
    && (forall i :: 0 <= i < |s| && IsSpace(s[i]) ==> s[i] == ' ')
    && (forall i, j :: 0 <= i && j == i + 1 < |s| ==> !IsSpace(s[i]) || !IsSpace(s[j]))
  }

  /** `re.sub(r"\s+", " ", s)`: each maximal run of whitespace becomes one
      space. The result is single-spaced, starts and ends like `s` (with
      whitespace turned into a space) and keeps every other character. */
  function Collapse(s: string): (r: string)
    ensures CollapsedFrom(s, r)
    decreases |s|
  {
    if |s| == 0 then []
    else if IsSpace(s[0]) then
      var rest := TrimStart(s[1..]);
      var tail := Collapse(rest);
      CollapseStepSpace(s, rest, tail);
      [' '] + tail
    else
      var tail := Collapse(s[1..]);
      CollapseStepChar(s, tail);
      [s[0]] + tail
  }

  /** Whitespace read as the single space `Collapse` writes for it. */
  function Squash(c: char): char {
    if IsSpace(c) then ' ' else c
  }

  /** What `Collapse` promises about `r` as the collapsed form of `s`. */
  predicate CollapsedFrom(s: string, r: string) {
    && |r| <= |s|
    && (|r| == 0 <==> |s| == 0)
    && (|s| > 0 ==> r[0] == Squash(s[0]))
    && (|s| > 0 ==> r[|r| - 1] == Squash(s[|s| - 1]))
    && SingleSpaced(r)
    && NonSpace(r) == NonSpace(s)
  }

  lemma CollapseStepSpace(s: string, rest: string, tail: string)
    requires |s| > 0 && IsSpace(s[0])
    requires rest == TrimStart(s[1..])
    requires CollapsedFrom(rest, tail)
    ensures CollapsedFrom(s, [' '] + tail)
  {
    CollapseSpaceLast(s, rest, tail);
    SingleSpacedCons(' ', tail);
    CollapseSpaceNonSpace(s, rest, tail);
  }

  lemma CollapseSpaceLast(s: string, rest: string, tail: string)
    requires |s| > 0 && IsSpace(s[0])
    requires rest == TrimStart(s[1..])
    requires CollapsedFrom(rest, tail)
    ensures ([' '] + tail)[|tail|] == Squash(s[|s| - 1])
  {
    if |rest| > 0 {
      assert rest[|rest| - 1] == s[|s| - 1];
    } else if |s| > 1 {
      TrimStartEmpty(s[1..]);
      assert s[|s| - 1] == s[1..][|s| - 2];
    }
  }

  lemma CollapseSpaceNonSpace(s: string, rest: string, tail: string)
    requires |s| > 0 && IsSpace(s[0])
    requires rest == TrimStart(s[1..])
    requires NonSpace(tail) == NonSpace(rest)
    ensures NonSpace([' '] + tail) == NonSpace(s)
  {
    NonSpaceAppend([' '], tail);
    TrimStartNonSpace(s[1..]);
    assert s == [s[0]] + s[1..];
    NonSpaceAppend([s[0]], s[1..]);
  }

  lemma CollapseStepChar(s: string, tail: string)
    requires |s| > 0 && !IsSpace(s[0])
    requires CollapsedFrom(s[1..], tail)
    ensures CollapsedFrom(s, [s[0]] + tail)
  {
    SingleSpacedCons(s[0], tail);
    NonSpaceAppend([s[0]], tail);
    assert s == [s[0]] + s[1..];
    NonSpaceAppend([s[0]], s[1..]);
  }

  /** Putting a character in front keeps a string single-spaced unless it is
      whitespace other than a space, or whitespace next to whitespace. */
  lemma SingleSpacedCons(c: char, t: string)
    requires SingleSpaced(t)
    requires IsSpace(c) ==> c == ' ' && (|t| == 0 || !IsSpace(t[0]))
    ensures SingleSpaced([c] + t)
  {
    var s := [c] + t;
    assert forall i :: 1 <= i < |s| ==> s[i] == t[i - 1];
  }

  /** Single-spaced with no whitespace at either end. */
  predicate Normalized(s: string) {
    SingleSpaced(s) && Trimmed(s)
  }

  /** `re.sub(r"\s+", " ", s).strip()`. */
  function Normalize(s: string): (r: string)
    ensures Normalized(r)
    ensures NonSpace(r) == NonSpace(s)
  {
    StripSingleSpaced(Collapse(s));
    Strip(Collapse(s))
  }

  lemma StripSingleSpaced(s: string)
    requires SingleSpaced(s)
    ensures SingleSpaced(Strip(s))
  {
    TrimStartKeepsSingleSpaced(s);
    TrimEndKeepsSingleSpaced(TrimStart(s));
  }

  lemma {:induction false} TrimStartKeepsSingleSpaced(s: string)
    requires SingleSpaced(s)
    ensures SingleSpaced(TrimStart(s))
    decreases |s|
  {
    if |s| > 0 && IsSpace(s[0]) {
      SliceSingleSpaced(s, 1, |s|, s[1..]);
      TrimStartKeepsSingleSpaced(s[1..]);
    }
  }

  lemma {:induction false} TrimEndKeepsSingleSpaced(s: string)
    requires SingleSpaced(s)
    ensures SingleSpaced(TrimEnd(s))
    decreases |s|
  {
    if |s| > 0 && IsSpace(s[|s| - 1]) {
      SliceSingleSpaced(s, 0, |s| - 1, s[..|s| - 1]);
      TrimEndKeepsSingleSpaced(s[..|s| - 1]);
    }
  }

  /** A character of `s` outside whitespace is a character of `NonSpace(s)`. */
  lemma {:induction false} InNonSpace(s: string, c: char)
    requires !IsSpace(c)
    ensures c in s <==> c in NonSpace(s)
    decreases |s|
  {
    if |s| > 0 {
      InNonSpace(s[1..], c);
      assert s == [s[0]] + s[1..];
    }
  }

  /** Normalizing brings in no character but the space. */
  lemma NormalizeChars(s: string)
    ensures forall i :: 0 <= i < |Normalize(s)| ==> Normalize(s)[i] == ' ' || Normalize(s)[i] in s
  {
    var r := Normalize(s);
    forall i | 0 <= i < |r| && r[i] != ' '
      ensures r[i] in s
    {
      InNonSpace(r, r[i]);
      InNonSpace(s, r[i]);
    }
  }

  /** A normalized string is its own normal form, so normalizing twice is
      the same as normalizing once. */
  lemma {:induction false} NormalizeFixpoint(s: string)
    requires Normalized(s)
    ensures Normalize(s) == s
  {
    CollapseFixpoint(s);
  }

  /** A slice `t` of a single-spaced string is single-spaced. */
  lemma SliceSingleSpaced(s: string, i: nat, j: nat, t: string)
    requires i <= j <= |s| && t == s[i..j]
    requires SingleSpaced(s)
    ensures SingleSpaced(t)
  {
    assert forall k :: 0 <= k < |t| ==> t[k] == s[i + k];
  }

  /** A single-spaced string is left unchanged by `Collapse`. */
  lemma {:induction false} CollapseFixpoint(s: string)
    requires SingleSpaced(s)
    ensures Collapse(s) == s
    decreases |s|
  {
    if |s| > 0 {
      SliceSingleSpaced(s, 1, |s|, s[1..]);
      if IsSpace(s[0]) {
        TrimStartSingleSpaced(s);
      }
      CollapseFixpoint(s[1..]);
      assert s == [s[0]] + s[1..];
    }
  }

  /** Behind a space of a single-spaced string, there is nothing to trim. */
  lemma TrimStartSingleSpaced(s: string)
    requires SingleSpaced(s)
    requires |s| > 0 && IsSpace(s[0])
    ensures TrimStart(s[1..]) == s[1..]
  {
    assert |s| == 1 || !IsSpace(s[1]);
  }

  lemma {:induction false} NormalizeIdempotent(s: string)
    ensures Normalize(Normalize(s)) == Normalize(s)
  {
    NormalizeFixpoint(Normalize(s));
  }
  // ------------------------------------------------ the split/join reference

  /** Length of the leading run of non-whitespace characters. */
  function NonSpaceRun(s: string): (n: nat)
    ensures n <= |s|
    ensures forall i :: 0 <= i < n ==> !IsSpace(s[i])
    ensures n == |s| || IsSpace(s[n])
    decreases |s|
  {
    if |s| > 0 && !IsSpace(s[0]) then 1 + NonSpaceRun(s[1..]) else 0
  }

  /** Any length that ends a leading run of non-whitespace is that run. */
  lemma {:induction false} NonSpaceRunUnique(s: string, n: nat)
    requires n <= |s|
    requires forall i :: 0 <= i < n ==> !IsSpace(s[i])
    requires n == |s| || IsSpace(s[n])
    ensures NonSpaceRun(s) == n
    decreases n
  {
    if n > 0 {
      NonSpaceRunUnique(s[1..], n - 1);
    }
  }

  /** Python's `s.split()`: the maximal whitespace-free pieces of `s`. */
  function SplitWhitespace(s: string): (ws: seq<string>)
    decreases |s|
  {
    if |s| == 0 then []
    else if IsSpace(s[0]) then SplitWhitespace(s[1..])
    else
      var n := NonSpaceRun(s);
      [s[..n]] + SplitWhitespace(s[n..])
  }

  /** `" ".join(ws)`. */
  function JoinSpaced(ws: seq<string>): string
  {
    if |ws| == 0 then ""
    else if |ws| == 1 then ws[0]
    else ws[0] + " " + JoinSpaced(ws[1..])
  }

  /** A piece `s.split()` can produce: non-empty and free of whitespace. */
  predicate IsToken(w: string) {
    |w| > 0 && forall i :: 0 <= i < |w| ==> !IsSpace(w[i])
  }

  lemma {:induction false} SplitWhitespaceTokens(s: string)
    ensures forall k :: 0 <= k < |SplitWhitespace(s)| ==> IsToken(SplitWhitespace(s)[k])
    decreases |s|
  {
    if |s| > 0 {
      if IsSpace(s[0]) {
        SplitWhitespaceTokens(s[1..]);
      } else {
        SplitWhitespaceTokens(s[NonSpaceRun(s)..]);
      }
    }
  }

  /** How a non-whitespace character in front extends the split. */
  lemma {:induction false} SplitWhitespaceCons(c: char, x: string)
    requires !IsSpace(c)
    ensures SplitWhitespace([c] + x) ==
      if |x| == 0 || IsSpace(x[0]) then [[c]] + SplitWhitespace(x)
      else [[c] + SplitWhitespace(x)[0]] + SplitWhitespace(x)[1..]
  {
    var s := [c] + x;
    assert s[1..] == x;
    var m := NonSpaceRun(x);
    assert NonSpaceRun(s) == 1 + m;
    assert SplitWhitespace(s) == [s[..1 + m]] + SplitWhitespace(s[1 + m..]);
    assert s[..1 + m] == [c] + x[..m];
    assert s[1 + m..] == x[m..];
    if |x| > 0 && !IsSpace(x[0]) {
      assert SplitWhitespace(x) == [x[..m]] + SplitWhitespace(x[m..]);
    } else {
      assert m == 0;
      assert x[..m] == [];
      assert x[m..] == x;
    }
  }

  lemma {:induction false} SplitWhitespaceTrimStart(s: string)
    ensures SplitWhitespace(TrimStart(s)) == SplitWhitespace(s)
    decreases |s|
  {
    if |s| > 0 && IsSpace(s[0]) {
      SplitWhitespaceTrimStart(s[1..]);
    }
  }

  /** Trailing whitespace adds no piece. */
  lemma {:induction false} SplitWhitespaceAppendBlank(s: string, b: string)
    requires AllSpace(b)
    ensures SplitWhitespace(s + b) == SplitWhitespace(s)
    decreases |s| + |b|
  {
    if |s| == 0 {
      assert s + b == b;
      if |b| > 0 {
        assert b[1..] == [] + b[1..];
        SplitWhitespaceAppendBlank([], b[1..]);
      }
    } else if IsSpace(s[0]) {
      assert (s + b)[1..] == s[1..] + b;
      SplitWhitespaceAppendBlank(s[1..], b);
    } else {
      var n := NonSpaceRun(s);
      NonSpaceRunUnique(s + b, n);
      assert (s + b)[..n] == s[..n];
      assert (s + b)[n..] == s[n..] + b;
      SplitWhitespaceAppendBlank(s[n..], b);
    }
  }

  lemma SplitWhitespaceStrip(s: string)
    ensures SplitWhitespace(Strip(s)) == SplitWhitespace(s)
  {
    SplitWhitespaceTrimStart(s);
    SplitWhitespaceTrimEnd(TrimStart(s));
  }

  lemma SplitWhitespaceTrimEnd(t: string)
    ensures SplitWhitespace(TrimEnd(t)) == SplitWhitespace(t)
  {
    var r := TrimEnd(t);
    var k := |r|;
    TrimEndDrops(t);
    assert t == r + t[k..];
    SplitWhitespaceAppendBlank(r, t[k..]);
  }

  /** Collapsing whitespace runs never changes the pieces. */
  lemma {:induction false} SplitWhitespaceCollapse(s: string)
    ensures SplitWhitespace(Collapse(s)) == SplitWhitespace(s)
    decreases |s|
  {
    if |s| > 0 && IsSpace(s[0]) {
      var rest := TrimStart(s[1..]);
      SplitWhitespaceCollapse(rest);
      SplitWhitespaceSpaceStep(s, rest, Collapse(rest));
    } else if |s| > 0 {
      SplitWhitespaceCollapse(s[1..]);
      SplitWhitespaceCharStep(s, Collapse(s[1..]));
    }
  }

  lemma SplitWhitespaceSpaceStep(s: string, rest: string, c: string)
    requires |s| > 0 && IsSpace(s[0])
    requires rest == TrimStart(s[1..])
    requires SplitWhitespace(c) == SplitWhitespace(rest)
    ensures SplitWhitespace([' '] + c) == SplitWhitespace(s)
  {
    SplitWhitespaceTrimStart(s[1..]);
    SplitWhitespaceSpaceCons(c);
  }

  lemma SplitWhitespaceCharStep(s: string, y: string)
    requires |s| > 0 && !IsSpace(s[0])
    requires SplitWhitespace(y) == SplitWhitespace(s[1..])
    requires |y| == 0 <==> |s| == 1
    requires |y| > 0 ==> y[0] == Squash(s[1])
    ensures SplitWhitespace([s[0]] + y) == SplitWhitespace(s)
  {
    var x := s[1..];
    assert (|x| == 0 || IsSpace(x[0])) <==> (|y| == 0 || IsSpace(y[0]));
    SplitWhitespaceSameCons(s[0], x, y);
    assert s == [s[0]] + x;
  }

  /** Two strings with the same pieces that both start inside a piece or
      both not keep the same pieces behind a common first character. */
  lemma SplitWhitespaceSameCons(c: char, x: string, y: string)
    requires !IsSpace(c)
    requires SplitWhitespace(x) == SplitWhitespace(y)
    requires (|x| == 0 || IsSpace(x[0])) <==> (|y| == 0 || IsSpace(y[0]))
    ensures SplitWhitespace([c] + x) == SplitWhitespace([c] + y)
  {
    SplitWhitespaceCons(c, x);
    SplitWhitespaceCons(c, y);
  }

  lemma SplitWhitespaceSpaceCons(x: string)
    ensures SplitWhitespace([' '] + x) == SplitWhitespace(x)
  {
    assert ([' '] + x)[1..] == x;
  }

  /** A normalized string is its pieces joined by single spaces. */
  lemma {:induction false} JoinSplitNormalized(t: string)
    requires Normalized(t)
    ensures JoinSpaced(SplitWhitespace(t)) == t
    decreases |t|
  {
    if |t| > 0 {
      var n := NonSpaceRun(t);
      if n == |t| {
        SplitWhole(t);
      } else {
        NormalizedRest(t, n);
        var rest := t[n + 1..];
        JoinSplitNormalized(rest);
        SplitAtSpace(t, n);
        JoinSpacedCons(t[..n], SplitWhitespace(rest));
        SplitAround(t, n);
      }
    }
  }

  /** Behind a whitespace character of a normalized string come a
      normalized remainder; the character itself is a space. */
  lemma NormalizedRest(t: string, n: nat)
    requires Normalized(t)
    requires n < |t| && IsSpace(t[n])
    ensures n + 1 < |t| && t[n] == ' '
    ensures Normalized(t[n + 1..])
  {
    SpaceInNormalized(t, n);
    var rest := t[n + 1..];
    SliceSingleSpaced(t, n + 1, |t|, rest);
    assert rest[0] == t[n + 1];
    assert rest[|rest| - 1] == t[|t| - 1];
  }

  lemma SpaceInNormalized(t: string, n: nat)
    requires Normalized(t)
    requires n < |t| && IsSpace(t[n])
    ensures n + 1 < |t| && t[n] == ' ' && !IsSpace(t[n + 1])
  {
  }

  /** A string without whitespace is its own single piece. */
  lemma SplitWhole(t: string)
    requires |t| > 0 && NonSpaceRun(t) == |t|
    ensures SplitWhitespace(t) == [t]
  {
    assert t[..|t|] == t;
  }

  lemma SplitAround(t: string, n: nat)
    requires n < |t| && t[n] == ' '
    ensures t == t[..n] + " " + t[n + 1..]
  {
  }

  /** The first piece ends at the first whitespace character. */
  lemma SplitAtSpace(t: string, n: nat)
    requires 0 < n == NonSpaceRun(t) < |t|
    requires n + 1 < |t| && !IsSpace(t[n + 1])
    ensures SplitWhitespace(t) == [t[..n]] + SplitWhitespace(t[n + 1..])
    ensures |SplitWhitespace(t[n + 1..])| > 0
  {
    var rest := t[n..];
    assert rest[1..] == t[n + 1..];
  }

  lemma JoinSpacedCons(w: string, ws: seq<string>)
    requires |ws| > 0
    ensures JoinSpaced([w] + ws) == w + " " + JoinSpaced(ws)
  {
    assert ([w] + ws)[1..] == ws;
  }

  /** `re.sub(r"\s+", " ", s).strip()` is `" ".join(s.split())`. */
  lemma NormalizeIsJoinSplit(s: string)
    ensures Normalize(s) == JoinSpaced(SplitWhitespace(s))
  {
    var c := Collapse(s);
    JoinSplitNormalized(Normalize(s));
    SplitWhitespaceStrip(c);
    SplitWhitespaceCollapse(s);
  }

  /** Joining tokens with single spaces and splitting again gives back the
      tokens. */
  lemma {:induction false} SplitJoinSpaced(ws: seq<string>)
    requires forall k :: 0 <= k < |ws| ==> IsToken(ws[k])
    ensures SplitWhitespace(JoinSpaced(ws)) == ws
    decreases |ws|
  {
    if |ws| == 1 {
      NonSpaceRunUnique(ws[0], |ws[0]|);
      assert ws[0][..|ws[0]|] == ws[0];
      assert ws[0][|ws[0]|..] == [];
    } else if |ws| > 1 {
      var w := ws[0];
      var tail := JoinSpaced(ws[1..]);
      var s := w + " " + tail;
      NonSpaceRunUnique(s, |w|);
      assert s[..|w|] == w;
      assert s[|w|..] == [' '] + tail;
      assert ([' '] + tail)[1..] == tail;
      SplitJoinSpaced(ws[1..]);
      assert ws == [w] + ws[1..];
    }
  }
}

=== FILE: wizard.dfy ===
/** The four-step wizard (capp.py, lines 18-25, 72-75, 117-129, 160-164 and
    204-205) as a pure transition function. A Streamlit rerun triggered by
    one widget is one `Event`; what the session keeps between reruns is the
    `State`. */
module Wizard {
  import opened Wrappers
  import opened Table
  import opened Ocr
  import opened Advice

  /** What step 3 collects: the internal mark of each theory subject, the
      expected grade of each other subject, and the target CGPA. */
  datatype Inputs = Inputs(internals: map<string, int>, grades: map<string, string>, target: real)

  datatype Event =
    | Upload(text: string)    // step 1: the OCR preview holds `text`
    | Proceed                 // the "Proceed" button of step 1 or step 2
    | Back                    // the "Back" button of step 2 or step 3
    | Confirm(edited: Table)  // step 2: "Confirm" with the grid holding `edited`
    | Analyze(given: Inputs)  // step 3: "Analyze & Get Strategy"
    | StartOver               // step 4: "Start Over"

  /** The session: the current step, the OCR text while an image is uploaded
      on step 1, the subject table (`df`), the `confirmed` flag and the
      step-3 inputs. */
  datatype State = State(
    step: int,
    upload: Option<string>,
    table: Option<Table>,
    confirmed: bool,
    inputs: Option<Inputs>)

  /** Lines 18-25: a fresh session. */
  const Init: State := State(1, None, None, false, None)

  /** One rerun. A button that the current step does not show cannot be
      pressed, so such an event leaves the state alone. */
  function Next(s: State, e: Event): (t: State)
    ensures s.step != 1 && s.upload.None? ==> t.upload.None?
    ensures e.Back? || e.Proceed? || e.StartOver? ==> t.table == s.table
    ensures t.step == 4 && s.step != 4 ==> s.step == 3 && e.Analyze? && t.inputs == Some(e.given)
    ensures t.inputs != s.inputs ==> e.Analyze? && s.step == 3
  {
    match e
    case Upload(text) =>
      if s.step == 1 then s.(upload := Some(text), table := Some(ParseText(text)), confirmed := false)
      else s
    case Proceed =>
      if s.step == 1 && s.upload.Some? then s.(step := 2, upload := None)
      else if s.step == 2 && s.confirmed then s.(step := 3)
      else s
    case Back =>
      if s.step == 2 then s.(step := 1)
      else if s.step == 3 then s.(step := 2)
      else s
    case Confirm(edited) =>
      if s.step == 2 then s.(table := Some(Cleanup(edited)), confirmed := true)
      else s
    case Analyze(given) =>
      if s.step == 3 then s.(inputs := Some(given), step := 4)
      else s
    case StartOver =>
      if s.step == 4 then s.(step := 1)
      else s
  }

  /** The state after the events `evs`, in order, starting from `s`. */
  function Run(s: State, evs: seq<Event>): State
    decreases |evs|
  {
    if |evs| == 0 then s else Next(Run(s, evs[..|evs| - 1]), evs[|evs| - 1])
  }

  /** What holds in every session the wizard can reach. */
  predicate Inv(s: State) {
    && 1 <= s.step <= 4
    && (s.upload.Some? ==> s.step == 1 && !s.confirmed && s.table == Some(ParseText(s.upload.value)))
    && (s.step >= 2 ==> s.table.Some? && Clean(s.table.value))
    && (s.confirmed ==> s.table.Some? && Clean(s.table.value))
    && (s.step >= 3 ==> s.confirmed)
    && (s.step == 4 ==> s.inputs.Some?)
  }

  lemma InitInv()
    ensures Inv(Init)
  {
  }

  lemma NextInv(s: State, e: Event)
    requires Inv(s)
    ensures Inv(Next(s, e))
  {
    match e
    case Upload(text) =>
    case Proceed =>
    case Back =>
    case Confirm(edited) =>
    case Analyze(given) =>
    case StartOver =>
  }

  /** Every session reached from a fresh one keeps the invariant; in
      particular the step is always 1, 2, 3 or 4. */
  lemma {:induction false} RunInv(evs: seq<Event>)
    ensures Inv(Run(Init, evs))
    ensures 1 <= Run(Init, evs).step <= 4
    decreases |evs|
  {
    if |evs| == 0 {
      InitInv();
    } else {
      RunInv(evs[..|evs| - 1]);
      NextInv(Run(Init, evs[..|evs| - 1]), evs[|evs| - 1]);
    }
  }

  /** Lines 72-75: step 1 is left only by "Proceed" with an image uploaded,
      for step 2, unconfirmed, with the table freshly parsed from the OCR
      text. */
  lemma LeaveStepOne(s: State, e: Event)
    requires s.step == 1
    ensures Next(s, e).step != 1 ==> e == Proceed && s.upload.Some? && Next(s, e).step == 2
    ensures Next(s, e).step != 1 && Inv(s) ==>
      !Next(s, e).confirmed && Next(s, e).table == Some(ParseText(s.upload.value))
  {
  }

  /** Lines 125-129: "Proceed" on step 2 moves on exactly when the edits are
      confirmed, and otherwise changes nothing. */
  lemma ProceedFromStepTwo(s: State)
    requires s.step == 2
    ensures s.confirmed ==> Next(s, Proceed) == s.(step := 3)
    ensures !s.confirmed ==> Next(s, Proceed) == s
  {
  }

  /** Step 3 is entered only from step 2, by "Proceed", once confirmed. */
  lemma EnterStepThree(s: State, e: Event)
    requires Next(s, e).step == 3 && s.step != 3
    ensures s.step == 2 && e == Proceed && s.confirmed
  {
  }

  /** Lines 160-164: step 4 is entered only by "Analyze" on step 3, which
      records the inputs. */
  lemma EnterStepFour(s: State, e: Event)
    requires Next(s, e).step == 4 && s.step != 4
    ensures s.step == 3 && e.Analyze?
    ensures Next(s, e).inputs == Some(e.given)
  {
  }

  /** Lines 120-122: confirming stores the cleaned edits. */
  lemma ConfirmStoresCleanup(s: State, edited: Table)
    requires s.step == 2
    ensures Next(s, Confirm(edited)).table == Some(Cleanup(edited))
    ensures Next(s, Confirm(edited)).confirmed
    ensures Next(s, Confirm(edited)).step == 2
  {
  }

  /** A session is only ever confirmed by a "Confirm" event: from a fresh
      session, being confirmed (and so reaching step 3 or 4) needs one. */
  lemma {:induction false} ConfirmedNeedsConfirm(evs: seq<Event>)
    requires Run(Init, evs).confirmed
    ensures exists i :: 0 <= i < |evs| && evs[i].Confirm?
    decreases |evs|
  {
    if |evs| > 0 {
      var init := evs[..|evs| - 1];
      var last := evs[|evs| - 1];
      if last.Confirm? {
        assert evs[|evs| - 1].Confirm?;
      } else {
        OnlyConfirmConfirms(Run(Init, init), last);
        ConfirmedNeedsConfirm(init);
        var i :| 0 <= i < |init| && init[i].Confirm?;
        assert evs[i] == init[i];
      }
    }
  }

  /** No event but "Confirm" turns the flag on. */
  lemma OnlyConfirmConfirms(s: State, e: Event)
    requires Next(s, e).confirmed && !e.Confirm?
    ensures s.confirmed
  {
  }

  /** What step 4 shows: the quick verdict and the subject-wise plan. */
  datatype Report = Report(verdict: string, plan: seq<PlanEntry>)

  /** Lines 167-189: the report of a reachable step-4 session. The verdict
      is the one for the stored target; the plan has one `Suggest` line per
      confirmed row, each with a subject, a suggested grade and, for theory
      rows, the end-semester mark that grade needs. */
  function Analysis(s: State): (r: Report)
    requires Inv(s) && s.step == 4
    ensures r.verdict == VeryDifficult <==> s.inputs.value.target >= 9.5
    ensures r.verdict == StrongPerformance <==> 9.0 <= s.inputs.value.target < 9.5
    ensures r.verdict == Comfortable <==> s.inputs.value.target < 9.0
    ensures |r.plan| == |s.table.value|
    ensures forall k :: 0 <= k < |r.plan| ==> r.plan[k] == Suggest(s.table.value[k])
    ensures forall k :: 0 <= k < |r.plan| ==>
      && r.plan[k].subject == s.table.value[k].subject
      && r.plan[k].subject.Some?
      && r.plan[k].grade in GradePoints
      && r.plan[k].mark == if s.table.value[k].kind == Some(Theory) then GradeToMark[r.plan[k].grade] else NoMark
  {
    Report(Verdict(s.inputs.value.target), Plan(s.table.value))
  }
}

=== FILE: wrappers.dfy ===
/** The optional value used wherever the program has a missing cell or a
    line that yields nothing. */
module Wrappers {

  datatype Option<+T> = None | Some(value: T)
}
